=== FILE: README.md ===
# commons-io `IOUtils`: the stream-copy core, in Dafny

This project models the stream utilities of `org.apache.commons.io.IOUtils`
and proves their contracts. The class has two primitive copy loops:
`copy(InputStream, OutputStream, int)` for bytes and
`copy(Reader, Writer, int)` for chars. Every other conversion between
`InputStream`, `Reader`, `String`, `byte[]`, `OutputStream` and `Writer` is
built on them. The class also has the lockstep comparison `contentEquals` and
the four `closeQuietly` overloads.

How the model represents the streams:

- A source (`InputStream`, `Reader`) is its whole data plus a cursor
  (`Streams.Source`).
- A sink (`OutputStream`, `Writer`) is the sequence written so far
  (`Streams.Sink`).
- Both carry a `Lifecycle`, which records `flush()` and `close()` calls and
  what this stream's `close()` does to an open stream: it closes it, throws
  an `IOException`, or throws an unchecked exception. Closing a stream that is
  already closed has no effect, as `java.io.Closeable` specifies.
- Text is Java text (`Text.jchar`, `Text.JString`): a `char` is one 16-bit
  UTF-16 code unit, so a character outside the Basic Multilingual Plane is two
  `char`s, and a lone surrogate is a legal `char`. A `Reader` chunk may end
  between the two halves of a pair, and the char copy counts code units.
- A source also counts the single-byte `read()` calls it has answered, so
  the read bounds of `contentEquals` are about reads actually made.
- Operations take stream states as arguments and return the new states.
- Exceptions the code raises itself are `Results.Result` failures carrying a
  `Results.Thrown`: the runtime `NegativeArraySizeException` from the buffer
  allocation, the `UnsupportedEncodingException` of an unknown charset name,
  and what a stream's own `close()` throws (an `IOException` or an unchecked
  exception).

The `closeQuietly` overloads catch only `IOException` (lines 176, 198, 219
and 240). Their doc comments (lines 161, 183, 205 and 226) say that any
exception is ignored, but an unchecked exception from `close()` escapes. The
model follows the code (`QuietClose.UncheckedCloseEscapes`).

How long each bulk `read(buf)` is depends on the stream. The copy loop
therefore picks the chunk length nondeterministically (`:|`). A chunk is any
length from one element up to the buffer size or the remaining input,
whichever is smaller. It is -1 at end of input, and 0 for an empty buffer.
The loop's postcondition holds for every such choice, so the copy's result
does not depend on how the source splits its reads.

The counter is Java's `int`. Each `count += n` wraps modulo 2^32
(`Int32.Wrap`). The returned count is therefore the number of elements copied,
wrapped into 32 bits. It equals that number exactly when the number is at most
2^31 - 1, and it is negative between 2^31 and 2^32 - 1 elements.

Character encodings are opaque. A `Charsets.Charset` is an arbitrary pair of
`encode`/`decode` functions. The `Charsets.Platform` (its default charset and
its registry of charset names) is a parameter of every conversion that uses
one.

Two JDK behaviours are assumptions of the model, written as plain definitions
and not proved:

- `Charsets.Resolve` is how an adapter picks its charset. A constructor
  without a name (`new InputStreamReader(input)` at line 362,
  `new OutputStreamWriter(output)` at lines 538 and 641) takes the platform
  default. A constructor with a name (lines 380 and 402) takes the registered
  charset, or throws `UnsupportedEncodingException` for an unknown name.
- `Conversions.FlushEncoded` is `OutputStreamWriter.flush()` (lines 542 and
  645). It encodes the chars the writer holds, appends them to the target,
  and flushes the target once.

## Model

| member | source | states |
|---|---|---|
| `Int32.Wrap` | src/java/org/apache/commons/io/IOUtils.java:283 | the `int` result of an addition lies in the 32-bit range, is congruent to the true sum modulo 2^32, and equals it when the sum is in range |
| `Int32.WrapAdd` | src/java/org/apache/commons/io/IOUtils.java:278-284 | wrapping the counter after every `count += n` gives the same value as wrapping the total once |
| `Streams.ReadBulk` | src/java/org/apache/commons/io/IOUtils.java:280 | one `read(buffer)`: -1 exactly when the buffer is non-empty and the input is at its end; otherwise the chunk length the stream chose, and the elements delivered are the next ones of the source and fill a prefix of the buffer, with the cursor advanced by that count; an empty buffer gets 0 and nothing is consumed |
| `Copying.Copy` | src/java/org/apache/commons/io/IOUtils.java:277-285 | a negative buffer size fails before any read; otherwise, for every chunking of the reads, the source ends at end of input, the sink holds its old contents followed by exactly the remaining input, neither stream is flushed or closed, and the count is the number of elements copied as a wrapped `int` |
| `Copying.CopyBytes` | src/java/org/apache/commons/io/IOUtils.java:272-286 | the byte copy has the contract of `Copy`, and its count equals the number of bytes copied whenever that is below 2^31 |
| `Copying.CopyChars` | src/java/org/apache/commons/io/IOUtils.java:311-323 | the char copy has the same contract over Java `char`s, UTF-16 code units, so its count is the number of code units copied |
| `Copying.CopyBytesDefault` | src/java/org/apache/commons/io/IOUtils.java:257-261 | `copy(InputStream, OutputStream)`: with `DEFAULT_BUFFER_SIZE` (4096, line 152) the byte copy never fails; it drains the source into the sink and counts exactly when the total is below 2^31 |
| `Copying.CopyCharsDefault` | src/java/org/apache/commons/io/IOUtils.java:296-300 | `copy(Reader, Writer)`: the same for the char copy |
| `Copying.EmptyBufferNeverEnds` | src/java/org/apache/commons/io/IOUtils.java:277-280 | with a zero-length buffer one pass of the loop body reads 0, not -1, so it does not leave the loop, and it leaves the source, the sink and the count exactly as they were: the loop state repeats for ever |
| `Copying.CountOverflows` | src/java/org/apache/commons/io/IOUtils.java:278 | from 2^31 up to 2^32 - 1 copied elements the `int` count is negative |
| `Conversions.CopyStreamToWriter` | src/java/org/apache/commons/io/IOUtils.java:396-404 | `copy(InputStream, Writer, String, int)`, and with no charset name `copy(InputStream, Writer, int)` at lines 359-364: an unknown charset name fails first, then a negative buffer size; otherwise the writer gains the decoding of every remaining byte and the stream ends drained |
| `Conversions.StreamToString` | src/java/org/apache/commons/io/IOUtils.java:464-472 | `toString(InputStream, String, int)`, and with no charset name `toString(InputStream, int)` at lines 431-437: the same failures; otherwise the string is the decoding of every remaining byte and the stream ends drained |
| `Conversions.StreamToByteArray` | src/java/org/apache/commons/io/IOUtils.java:496-502 | a negative buffer size fails; otherwise the array is exactly the remaining bytes and the stream ends drained |
| `Conversions.CopyReaderToStream` | src/java/org/apache/commons/io/IOUtils.java:535-543 | a negative buffer size fails; otherwise the stream gains the default-charset encoding of every remaining char and is flushed exactly once, nothing else about it changes, and the reader ends drained |
| `Conversions.ReaderToString` | src/java/org/apache/commons/io/IOUtils.java:566-572 | a negative buffer size fails; otherwise the string is exactly the remaining chars and the reader ends drained |
| `Conversions.ReaderToByteArray` | src/java/org/apache/commons/io/IOUtils.java:596-602 | a negative buffer size fails; otherwise the array is the default-charset encoding of the remaining chars |
| `Conversions.CopyStringToStream` | src/java/org/apache/commons/io/IOUtils.java:637-646 | a negative buffer size fails; otherwise the stream gains the default-charset encoding of the whole string and is flushed exactly once |
| `Conversions.CopyStringToWriter` | src/java/org/apache/commons/io/IOUtils.java:660-664 | the writer gains the string's characters in order after its old contents, and is neither flushed nor closed |
| `Conversions.StringToByteArray` | src/java/org/apache/commons/io/IOUtils.java:687-693 | a negative buffer size fails; otherwise the array is the default-charset encoding of the string |
| `Conversions.CopyBytesToWriter` | src/java/org/apache/commons/io/IOUtils.java:768-776 | `copy(byte[], Writer, String, int)`, and with no charset name `copy(byte[], Writer, int)` at lines 731-736: an unknown charset name fails first, then a negative buffer size; otherwise the writer gains the decoding of the whole array |
| `Conversions.BytesToString` | src/java/org/apache/commons/io/IOUtils.java:836-844 | `toString(byte[], String, int)`, and with no charset name `toString(byte[], int)` at lines 803-809: the same failures; otherwise the string is the decoding of the whole array |
| `Conversions.CopyBytesToStream` | src/java/org/apache/commons/io/IOUtils.java:871-877 | whatever the buffer size, the stream gains the whole array in order and nothing else changes |
| `Conversions.StringThroughBytes` | src/java/org/apache/commons/io/IOUtils.java:687-693 | `toString(byte[], int)` (lines 803-809) applied to the result of `toByteArray(String)` gives back the decoding of the string's default-charset encoding, so it gives back the string itself whenever that charset is lossless for it; a negative buffer size fails on the first leg |
| `Conversions.BytesThroughStream` | src/java/org/apache/commons/io/IOUtils.java:871-877 | an array written to a fresh stream and read back with `toByteArray(InputStream)` (lines 496-502) comes back unchanged for every positive buffer size |
| `Conversions.StringThroughWriter` | src/java/org/apache/commons/io/IOUtils.java:660-664 | a string written to a fresh writer and read back with `toString(Reader)` (lines 566-572) comes back unchanged for every positive buffer size |
| `ContentEquality.CommonPrefix` | src/java/org/apache/commons/io/IOUtils.java:894-903 | the number of lockstep reads that return equal bytes; it is at most the length of either sequence (what this number means is stated by the next two lemmas) |
| `ContentEquality.CommonPrefixSplits` | src/java/org/apache/commons/io/IOUtils.java:895-903 | the position where the lockstep scan stops: both sequences agree below it, and at it they differ unless one of them has ended |
| `ContentEquality.CommonPrefixAt` | src/java/org/apache/commons/io/IOUtils.java:895-903 | conversely, any position with that property is where the lockstep scan stops, so the stopping point is unique |
| `ContentEquality.EqualIffCommonPrefixIsWhole` | src/java/org/apache/commons/io/IOUtils.java:905-913 | two sequences are equal exactly when their common prefix covers both of them |
| `ContentEquality.ContentEquals` | src/java/org/apache/commons/io/IOUtils.java:887-914 | true exactly when both streams have the same remaining bytes (so two empty streams are equal); each wrapper answers exactly one `read()` more than the common prefix length, never more than the shorter length plus one, counting the -1 end marker; each wrapper's cursor moves past the bytes those reads delivered and nothing else about it changes |
| `QuietClose.CloseCatching` | src/java/org/apache/commons/io/IOUtils.java:172-178 | `close()` is called once; an `IOException` it throws is swallowed, and the result fails exactly when an open stream's `close()` throws an unchecked exception, which then escapes unchanged; on success the stream is closed unless its close threw, and the flush count is untouched |
| `QuietClose.CloseQuietlyInput` | src/java/org/apache/commons/io/IOUtils.java:165-179 | `closeQuietly(Reader)`, and the identical `closeQuietly(InputStream)` at lines 229-243: nothing happens for an absent stream; otherwise `close()` is called once and the contents, cursor and read count are untouched; the stream ends closed unless its close threw; an `IOException` is swallowed, while an unchecked exception from an open stream's `close()` escapes |
| `QuietClose.CloseQuietlyOutput` | src/java/org/apache/commons/io/IOUtils.java:187-201 | `closeQuietly(Writer)`, and the identical `closeQuietly(OutputStream)` at lines 208-222: the same contract for sinks; the written contents and the flush count are untouched |
| `QuietClose.QuietlySwallowsCloseFailure` | src/java/org/apache/commons/io/IOUtils.java:236-242 | when a stream's `close()` throws an `IOException`, the quiet close returns normally with the same stream state that `close()` leaves |
| `QuietClose.UncheckedCloseEscapes` | src/java/org/apache/commons/io/IOUtils.java:236-242 | when an open stream's `close()` throws an unchecked exception, `closeQuietly` throws it too, for sources and for sinks, despite the doc comment's "any exceptions will be ignored" (line 226) |
| `QuietClose.CloseQuietlyInputTwice` | src/java/org/apache/commons/io/IOUtils.java:229-243 | once a quiet close of a source has returned normally, a second one also returns normally and leaves the contents, the cursor and the open/closed state as the first one did |
| `QuietClose.CloseQuietlyOutputTwice` | src/java/org/apache/commons/io/IOUtils.java:208-222 | once a quiet close of a sink has returned normally, a second one also returns normally and leaves the written contents and the open/closed state as the first one did |

## Left out

- Overloads without a buffer size (lines 343-347, 377-382, 417-421, 448-452, 483-487, 520-524, 553-557, 583-587, 622-626, 674-678, 715-719, 749-754, 789-793, 820-824, 857-861) are equivalent to the members above called with `DEFAULT_BUFFER_SIZE` (`Copying.DefaultBufferSize`, 4096, line 152), and some of them with no charset name. Most forward directly. Two build their adapter themselves and then call an overload without a size: lines 377-382 (`new InputStreamReader(input, encoding)`) and 749-754 (`new ByteArrayInputStream(input)`). Their behaviour, failure order included, is that of `Conversions.CopyStreamToWriter` and `Conversions.CopyBytesToWriter` with the charset name and 4096. The two forwarders of the primitive copies (lines 257-261 and 296-300) are modelled as `Copying.CopyBytesDefault` and `Copying.CopyCharsDefault`. The overloads that take a buffer size but no charset name (lines 359-364, 431-437, 731-736, 803-809) build their adapter with the platform default charset; in the model a missing charset name is `encoding == None`.
- A buffer size of 0: every member that copies requires a non-zero size. For a stream that follows `InputStream`'s contract, a read into an empty buffer returns 0, never -1, so the loop at line 280 would not terminate (`Copying.EmptyBufferNeverEnds`). Some streams answer -1 at end of input before they look at the length; `ByteArrayInputStream` is one. With those, a copy with size 0 of an exhausted stream returns 0. A negative size is modelled as the `NegativeArraySize` failure.
- Charset behaviour: encoders and decoders are arbitrary functions. Nothing is proved about particular charsets such as UTF-8. Decoding is applied to the whole remaining input at once. That matches the source because the decoder inside `InputStreamReader` keeps an unfinished multi-byte sequence from one chunk and completes it with the next, so the chunking does not change the decoded text.
- `OutputStreamWriter` buffering: the model delivers the encoded bytes to the target only at the flush. A real writer may push some earlier, when its internal buffer fills. The final contents are the same.
- `BufferedInputStream` (lines 891-892) is taken as transparent. It may read ahead of the bytes `contentEquals` consumes, so the cursor positions of the underlying streams after the comparison are those of the wrappers.
- I/O failures of the underlying streams in read, write, flush and close are not modelled, except a close that throws inside `closeQuietly`. Exception propagation, partial writes, and reads or writes on a closed stream are left out with them.
- Endless sources: a source's data is a finite sequence. An `InputStream` or `Reader` that never reports end of input makes the loops at lines 280 and 317 run for ever, and the model cannot express it.
- `null` arguments: only `closeQuietly` handles an absent argument, and the model takes every other stream, string, array and charset name as present. In the source, a `null` source, a `null` charset name, and a `null` string or array that the method wraps in an adapter (`StringReader`, `ByteArrayInputStream`, `InputStreamReader`) raise a `NullPointerException` from the JDK. `copy(String, Writer)` (line 663) and `copy(byte[], OutputStream[, int])` (line 876) instead hand a `null` string or array to the sink's own `write`, so the sink decides: the default `Writer` and `OutputStream` implementations throw `NullPointerException`, while `StringWriter.write(String)` appends the four chars "null" and returns normally. `contentEquals` is different again: `new BufferedInputStream(null)` (lines 891-892) succeeds, and the first `read()` (line 894) throws an `IOException`. A `null` sink throws a `NullPointerException` where it is used before any read: the `OutputStreamWriter` constructors at lines 538 and 641, and the single `write` at lines 663 and 876. The primitive copies call the sink only inside the loop (lines 280-284 and 317-321), and so do the overloads that pass a `Writer` on to them (lines 359-364, 396-404, 731-736, 768-776 and their forwarders). There a `null` sink with an empty source returns normally, with a count of 0.
- ContentEquality.ContentEquals: the two arguments are taken to be distinct streams. Passed one stream twice, the model compares its remaining bytes with themselves and returns true. The source wraps the one object in two `BufferedInputStream`s (lines 891-892), so each wrapper sees only the bytes the other's buffer fills have not taken. For a non-empty stream whose first fill takes all of its bytes, the second wrapper reads -1 at once and the result is false (line 898 or 906).
- QuietClose.CloseQuietlyInputTwice: says nothing about a second call after the first one threw an unchecked exception. A call that throws returns no stream state in the model, so there is no state to close again.
- QuietClose.CloseQuietlyOutputTwice: the same, for sinks.
- `contentEquals` with absent streams: its doc comment (line 884) says two absent streams compare equal. The code wraps them in `BufferedInputStream` and reads, which fails. The model follows the code and takes two present streams.
- The public constructor (line 157) and the deprecation notes.
- Concurrency, resource lifecycle and garbage collection.

=== FILE: charsets.dfy ===
/** Character encodings, kept opaque: a charset is whatever pair of
    transforms the platform supplies, and the platform is a parameter. */
module Charsets {
  import opened Results
  import opened Streams
  import opened Text

  /** The transforms behind `InputStreamReader` (decode) and `OutputStreamWriter` (encode). */
  datatype Charset = Charset(encode: JString -> seq<byte>, decode: seq<byte> -> JString)

  /** The host platform: its default charset and its registry of charsets by name. */
  datatype Platform = Platform(defaultCharset: Charset, lookup: JString -> Option<Charset>)

  /** The charset an adapter is built with: the platform default when no name
      is given, the registered one otherwise, and an `UnsupportedEncoding`
      failure for a name the platform does not know. This is the behaviour the
      model assumes of the `InputStreamReader` and `OutputStreamWriter`
      constructors. */
  function Resolve(p: Platform, encoding: Option<JString>): Result<Charset>
  {
    match encoding
    case None => Success(p.defaultCharset)
    case Some(name) =>
      match p.lookup(name)
      case Some(cs) => Success(cs)
      case None => Failure(UnsupportedEncoding(name))
  }
}

=== FILE: content_equality.dfy ===
/** `IOUtils.contentEquals`: a lockstep single-byte comparison of two byte
    streams that stops at the first difference. */
module ContentEquality {
  import opened Streams

  function Min(a: nat, b: nat): (m: nat)
    ensures m <= a && m <= b && (m == a || m == b)
  {
    if a <= b then a else b
  }

  /** The length of the longest common prefix of `x` and `y`: the number of
      lockstep reads that return equal bytes. */
  function CommonPrefix(x: seq<byte>, y: seq<byte>): (p: nat)
    ensures p <= |x| && p <= |y|
  {
    if |x| == 0 || |y| == 0 || x[0] != y[0] then 0
    else 1 + CommonPrefix(x[1..], y[1..])
  }

  /** `x` and `y` agree below their common prefix length and, unless one of
      them ends there, differ at it. */
  lemma {:induction false} CommonPrefixSplits(x: seq<byte>, y: seq<byte>)
    ensures CommonPrefix(x, y) <= |x| && CommonPrefix(x, y) <= |y|
    ensures x[..CommonPrefix(x, y)] == y[..CommonPrefix(x, y)]
    ensures CommonPrefix(x, y) < |x| && CommonPrefix(x, y) < |y| ==> x[CommonPrefix(x, y)] != y[CommonPrefix(x, y)]
  {
    if |x| != 0 && |y| != 0 && x[0] == y[0] {
      var p := CommonPrefix(x[1..], y[1..]);
      CommonPrefixSplits(x[1..], y[1..]);
      assert x[..p + 1] == [x[0]] + x[1..][..p];
      assert y[..p + 1] == [y[0]] + y[1..][..p];
    }
  }

  /** Any position below which `x` and `y` agree and at which they differ or
      one of them ends is the common prefix length. */
  lemma {:induction false} CommonPrefixAt(x: seq<byte>, y: seq<byte>, i: nat)
    requires i <= |x| && i <= |y|
    requires x[..i] == y[..i]
    requires i == |x| || i == |y| || x[i] != y[i]
    ensures CommonPrefix(x, y) == i
  {
    if i > 0 {
      assert x[0] == x[..i][0] && y[0] == y[..i][0];
      assert x[1..][..i - 1] == x[..i][1..] && y[1..][..i - 1] == y[..i][1..];
      CommonPrefixAt(x[1..], y[1..], i - 1);
    }
  }

  /** Two sequences are equal exactly when their common prefix is all of both. */
  lemma EqualIffCommonPrefixIsWhole(x: seq<byte>, y: seq<byte>)
    ensures x == y <==> CommonPrefix(x, y) == |x| == |y|
  {
    var p := CommonPrefix(x, y);
    CommonPrefixSplits(x, y);
    if p == |x| == |y| {
      assert x == x[..p] && y == y[..p];
    }
  }

  /** `contentEquals(InputStream, InputStream)`, with the `BufferedInputStream`
      wrappers taken as transparent. The result is true exactly when the two
      streams have the same remaining bytes. Each stream answers one `read()`
      more than the length of the common prefix (the last one being the
      differing byte or the end marker), so never more than the shorter length
      plus one; its cursor moves past the bytes those reads delivered. */
  method ContentEquals(input1: Source<byte>, input2: Source<byte>)
    returns (equal: bool, after1: Source<byte>, after2: Source<byte>)
    requires input1.Valid() && input2.Valid()
    ensures equal <==> input1.Remaining() == input2.Remaining()
    ensures after1.singleReads - input1.singleReads == after2.singleReads - input2.singleReads
                                                    == CommonPrefix(input1.Remaining(), input2.Remaining()) + 1
    ensures after1.singleReads - input1.singleReads <= Min(|input1.Remaining()|, |input2.Remaining()|) + 1
    ensures var k := CommonPrefix(input1.Remaining(), input2.Remaining()) + 1;
            after1 == input1.(pos := input1.pos + Min(k, |input1.Remaining()|), singleReads := input1.singleReads + k)
    ensures var k := CommonPrefix(input1.Remaining(), input2.Remaining()) + 1;
            after2 == input2.(pos := input2.pos + Min(k, |input2.Remaining()|), singleReads := input2.singleReads + k)
  {
    ghost var rest1 := input1.Remaining();
    ghost var rest2 := input2.Remaining();
    ghost var i: nat := 0;
    var s1 := input1;
    var s2 := input2;
    var read1 := ReadByte(s1);
    var ch := read1.0;
    s1 := read1.1;
    while ch != -1
      invariant s1.Valid() && s1.data == input1.data && s1.life == input1.life
      invariant s2.Valid() && s2.data == input2.data && s2.life == input2.life
      invariant i <= |rest1| && i <= |rest2|
      invariant rest1[..i] == rest2[..i]
      invariant s2.pos == input2.pos + i
      invariant ch == -1 ==> i == |rest1| && s1.pos == input1.pos + i
      invariant ch != -1 ==> i < |rest1| && ch == rest1[i] as int && s1.pos == input1.pos + i + 1
      invariant s1.singleReads == input1.singleReads + i + 1 && s2.singleReads == input2.singleReads + i
      decreases |rest1| - i
    {
      var read2 := ReadByte(s2);
      var ch2 := read2.0;
      s2 := read2.1;
      if ch != ch2 {
        CommonPrefixAt(rest1, rest2, i);
        return false, s1, s2;
      }
      assert rest1[..i + 1] == rest1[..i] + [rest1[i]];
      assert rest2[..i + 1] == rest2[..i] + [rest2[i]];
      read1 := ReadByte(s1);
      ch := read1.0;
      s1 := read1.1;
      i := i + 1;
    }
    var read2 := ReadByte(s2);
    var ch2 := read2.0;
    s2 := read2.1;
    CommonPrefixAt(rest1, rest2, i);
    EqualIffCommonPrefixIsWhole(rest1, rest2);
    if -1 != ch2 {
      return false, s1, s2;
    } else {
      return true, s1, s2;
    }
  }
}

=== FILE: conversions.dfy ===
/** The derived conversions of `IOUtils` (rows 3 to 14 of its class map):
    each routes its input through in-memory or charset adapters into one of
    the two primitive copies. */
module Conversions {
  import opened Int32
  import opened Results
  import opened Streams
  import opened Charsets
  import opened Copying
  import opened Text

  /** The checks a byte-to-char conversion makes before its first read, in
      order: building the `InputStreamReader` (an unknown charset name), then
      allocating the copy buffer (a negative size). */
  function Prepare(p: Platform, encoding: Option<JString>, bufferSize: int32): Result<Charset>
  {
    match Resolve(p, encoding)
    case Failure(e) => Failure(e)
    case Success(cs) => if bufferSize < 0 then Failure(NegativeArraySize) else Success(cs)
  }

  /** `OutputStreamWriter.flush()`, as the model assumes it behaves: the chars
      the writer holds reach the target only now, encoded, and the target is
      flushed in turn. */
  function FlushEncoded(cs: Charset, pending: JString, target: Sink<byte>): Sink<byte>
  {
    target.Append(cs.encode(pending)).Flush()
  }

  // InputStream -> *

  /** `copy(InputStream, Writer[, String][, int])`: the writer receives the
      decoding of every byte the stream had left, and the stream ends drained.
      With no encoding name the platform default charset is used. */
  method CopyStreamToWriter(p: Platform, input: Source<byte>, output: Sink<jchar>,
                            encoding: Option<JString>, bufferSize: int32)
    returns (r: Result<(Source<byte>, Sink<jchar>)>)
    requires input.Valid()
    requires Resolve(p, encoding).Failure? || bufferSize != 0
    ensures match Prepare(p, encoding, bufferSize)
            case Failure(e) => r == Failure(e)
            case Success(cs) => r == Success((input.Drained(), output.Append(cs.decode(input.Remaining()))))
  {
    var cs :- Resolve(p, encoding);
    var reader := Over(cs.decode(input.Remaining()));
    var c :- CopyChars(reader, output, bufferSize);
    r := Success((input.Drained(), c.output));
  }

  /** `toString(InputStream[, String][, int])`: the decoding of every byte the stream had left. */
  method StreamToString(p: Platform, input: Source<byte>, encoding: Option<JString>, bufferSize: int32)
    returns (r: Result<(Source<byte>, JString)>)
    requires input.Valid()
    requires Resolve(p, encoding).Failure? || bufferSize != 0
    ensures match Prepare(p, encoding, bufferSize)
            case Failure(e) => r == Failure(e)
            case Success(cs) => r == Success((input.Drained(), cs.decode(input.Remaining())))
  {
    var sw: Sink<jchar> := Sink([], Fresh);
    var c :- CopyStreamToWriter(p, input, sw, encoding, bufferSize);
    r := Success((c.0, c.1.written));
  }

  /** `toByteArray(InputStream[, int])`: exactly the bytes the stream had left. */
  method StreamToByteArray(input: Source<byte>, bufferSize: int32) returns (r: Result<(Source<byte>, seq<byte>)>)
    requires input.Valid()
    requires bufferSize != 0
    ensures bufferSize < 0 ==> r == Failure(NegativeArraySize)
    ensures bufferSize > 0 ==> r == Success((input.Drained(), input.Remaining()))
  {
    var output: Sink<byte> := Sink([], Fresh);
    var c :- CopyBytes(input, output, bufferSize);
    assert output.written + input.Remaining() == input.Remaining();
    r := Success((c.input, c.output.written));
  }

  // Reader -> *

  /** `copy(Reader, OutputStream[, int])`: the chars go through an
      `OutputStreamWriter` with the platform default charset, which is flushed
      afterwards, so the stream receives the encoding of every char the reader
      had left and is flushed exactly once. */
  method CopyReaderToStream(p: Platform, input: Source<jchar>, output: Sink<byte>, bufferSize: int32)
    returns (r: Result<(Source<jchar>, Sink<byte>)>)
    requires input.Valid()
    requires bufferSize != 0
    ensures bufferSize < 0 ==> r == Failure(NegativeArraySize)
    ensures bufferSize > 0 ==> r.Success? && r.value.0 == input.Drained()
    ensures bufferSize > 0 ==> r.Success? && r.value.1.written == output.written + p.defaultCharset.encode(input.Remaining())
    ensures bufferSize > 0 ==> r.Success? && r.value.1.life == output.life.(flushCalls := output.life.flushCalls + 1)
  {
    var out: Sink<jchar> := Sink([], Fresh);
    var c :- CopyChars(input, out, bufferSize);
    assert out.written + input.Remaining() == input.Remaining();
    r := Success((c.input, FlushEncoded(p.defaultCharset, c.output.written, output)));
  }

  /** `toString(Reader[, int])`: exactly the chars the reader had left. */
  method ReaderToString(input: Source<jchar>, bufferSize: int32) returns (r: Result<(Source<jchar>, JString)>)
    requires input.Valid()
    requires bufferSize != 0
    ensures bufferSize < 0 ==> r == Failure(NegativeArraySize)
    ensures bufferSize > 0 ==> r == Success((input.Drained(), input.Remaining()))
  {
    var sw: Sink<jchar> := Sink([], Fresh);
    var c :- CopyChars(input, sw, bufferSize);
    assert sw.written + input.Remaining() == input.Remaining();
    r := Success((c.input, c.output.written));
  }

  /** `toByteArray(Reader[, int])`: the platform-default encoding of the chars the reader had left. */
  method ReaderToByteArray(p: Platform, input: Source<jchar>, bufferSize: int32)
    returns (r: Result<(Source<jchar>, seq<byte>)>)
    requires input.Valid()
    requires bufferSize != 0
    ensures bufferSize < 0 ==> r == Failure(NegativeArraySize)
    ensures bufferSize > 0 ==> r == Success((input.Drained(), p.defaultCharset.encode(input.Remaining())))
  {
    var output: Sink<byte> := Sink([], Fresh);
    var c :- CopyReaderToStream(p, input, output, bufferSize);
    assert output.written + p.defaultCharset.encode(input.Remaining()) == p.defaultCharset.encode(input.Remaining());
    r := Success((c.0, c.1.written));
  }

  // String -> *

  /** `copy(String, OutputStream[, int])`: a `StringReader` copied into an
      `OutputStreamWriter` that is flushed afterwards; the stream receives the
      platform-default encoding of the whole string and is flushed once. */
  method CopyStringToStream(p: Platform, input: JString, output: Sink<byte>, bufferSize: int32)
    returns (r: Result<Sink<byte>>)
    requires bufferSize != 0
    ensures bufferSize < 0 ==> r == Failure(NegativeArraySize)
    ensures bufferSize > 0 ==> r.Success? && r.value.written == output.written + p.defaultCharset.encode(input)
    ensures bufferSize > 0 ==> r.Success? && r.value.life == output.life.(flushCalls := output.life.flushCalls + 1)
  {
    var reader := Over(input);
    var out: Sink<jchar> := Sink([], Fresh);
    var c :- CopyChars(reader, out, bufferSize);
    assert out.written + reader.Remaining() == input;
    r := Success(FlushEncoded(p.defaultCharset, c.output.written, output));
  }

  /** `copy(String, Writer)`: one `write(String)`, no buffer, no flush. */
  function CopyStringToWriter(input: JString, output: Sink<jchar>): (r: Sink<jchar>)
    ensures |r.written| == |output.written| + |input|
            && r.written[..|output.written|] == output.written
            && forall i :: 0 <= i < |input| ==> r.written[|output.written| + i] == input[i]
    ensures r.life == output.life
  {
    output.Append(input)
  }

  /** `toByteArray(String[, int])`: the platform-default encoding of the string. */
  method StringToByteArray(p: Platform, input: JString, bufferSize: int32) returns (r: Result<seq<byte>>)
    requires bufferSize != 0
    ensures bufferSize < 0 ==> r == Failure(NegativeArraySize)
    ensures bufferSize > 0 ==> r == Success(p.defaultCharset.encode(input))
  {
    var output: Sink<byte> := Sink([], Fresh);
    var c :- CopyStringToStream(p, input, output, bufferSize);
    assert output.written + p.defaultCharset.encode(input) == p.defaultCharset.encode(input);
    r := Success(c.written);
  }

  // byte[] -> *

  /** `copy(byte[], Writer[, String][, int])`: the writer receives the decoding of the whole array. */
  method CopyBytesToWriter(p: Platform, input: seq<byte>, output: Sink<jchar>,
                           encoding: Option<JString>, bufferSize: int32)
    returns (r: Result<Sink<jchar>>)
    requires Resolve(p, encoding).Failure? || bufferSize != 0
    ensures match Prepare(p, encoding, bufferSize)
            case Failure(e) => r == Failure(e)
            case Success(cs) => r == Success(output.Append(cs.decode(input)))
  {
    var c :- CopyStreamToWriter(p, Over(input), output, encoding, bufferSize);
    r := Success(c.1);
  }

  /** `toString(byte[][, String][, int])`: the decoding of the whole array. */
  method BytesToString(p: Platform, input: seq<byte>, encoding: Option<JString>, bufferSize: int32)
    returns (r: Result<JString>)
    requires Resolve(p, encoding).Failure? || bufferSize != 0
    ensures match Prepare(p, encoding, bufferSize)
            case Failure(e) => r == Failure(e)
            case Success(cs) => r == Success(cs.decode(input))
  {
    var sw: Sink<jchar> := Sink([], Fresh);
    var c :- CopyBytesToWriter(p, input, sw, encoding, bufferSize);
    r := Success(c.written);
  }

  /** `copy(byte[], OutputStream[, int])`: one `write(byte[])` of the whole
      array; the buffer size is accepted and ignored, whatever its value. */
  function CopyBytesToStream(input: seq<byte>, output: Sink<byte>, bufferSize: int32): (r: Sink<byte>)
    ensures |r.written| == |output.written| + |input|
            && r.written[..|output.written|] == output.written
            && forall i :: 0 <= i < |input| ==> r.written[|output.written| + i] == input[i]
    ensures r.life == output.life
  {
    output.Append(input)
  }

  // Round trips

  /** `toString(toByteArray(s))` with the default charset on both legs gives
      back `s` whenever that charset decodes what it encodes. */
  method StringThroughBytes(p: Platform, s: JString, bufferSize: int32) returns (back: Result<JString>)
    requires bufferSize != 0
    ensures bufferSize < 0 ==> back == Failure(NegativeArraySize)
    ensures bufferSize > 0 ==> back == Success(p.defaultCharset.decode(p.defaultCharset.encode(s)))
    ensures bufferSize > 0 && p.defaultCharset.decode(p.defaultCharset.encode(s)) == s ==> back == Success(s)
  {
    var bytes :- StringToByteArray(p, s, bufferSize);
    back := BytesToString(p, bytes, None, bufferSize);
  }

  /** Writing an array to a fresh stream with `copy(byte[], OutputStream)` and
      reading that stream back with `toByteArray(InputStream)` gives the array
      back unchanged, for every positive buffer size. */
  method BytesThroughStream(data: seq<byte>, bufferSize: int32) returns (back: Result<seq<byte>>)
    requires bufferSize != 0
    ensures bufferSize < 0 ==> back == Failure(NegativeArraySize)
    ensures bufferSize > 0 ==> back == Success(data)
  {
    var sink := CopyBytesToStream(data, Sink([], Fresh), bufferSize);
    assert sink.written == data;
    var read :- StreamToByteArray(Over(sink.written), bufferSize);
    back := Success(read.1);
  }

  /** Writing a string to a fresh writer with `copy(String, Writer)` and
      reading it back with `toString(Reader)` gives the string back unchanged. */
  method StringThroughWriter(s: JString, bufferSize: int32) returns (back: Result<JString>)
    requires bufferSize != 0
    ensures bufferSize < 0 ==> back == Failure(NegativeArraySize)
    ensures bufferSize > 0 ==> back == Success(s)
  {
    var writer := CopyStringToWriter(s, Sink([], Fresh));
    assert writer.written == s;
    var read :- ReaderToString(Over(writer.written), bufferSize);
    back := Success(read.1);
  }
}

=== FILE: copying.dfy ===
/** The two primitive copy loops of `IOUtils`: `copy(InputStream, OutputStream, int)`
    and `copy(Reader, Writer, int)`. Every other conversion is built on them. */
module Copying {
  import opened Int32
  import opened Results
  import opened Streams
  import opened Text

  /** `DEFAULT_BUFFER_SIZE`, passed by every overload that takes no buffer size. */
  const DefaultBufferSize: int32 := 1024 * 4

  /** What a primitive copy leaves behind and returns. */
  datatype Copied<T> = Copied(input: Source<T>, output: Sink<T>, count: int32)

  /** A successful copy: the source is at end of input, the sink gained exactly
      what the source had left and nothing else about either stream changed
      (neither is flushed nor closed), and the count is the number of elements
      copied as a Java `int`. */
  ghost predicate CopiedAll<T>(input: Source<T>, output: Sink<T>, c: Copied<T>)
    requires input.Valid()
  {
    && c.input == input.Drained()
    && c.output.written == output.written + input.Remaining()
    && c.output.life == output.life
    && c.count == Wrap(|input.Remaining()|)
  }

  /** The shared copy loop. It allocates one buffer of `bufferSize` elements,
      which fails for a negative size, then reads chunks of whatever length the
      source chooses until it reports end of input, writing each chunk and adding
      its length to an `int` counter. A zero size is excluded: a read into an
      empty buffer returns 0, so the loop would never end. */
  method Copy<T(0)>(input: Source<T>, output: Sink<T>, bufferSize: int32) returns (r: Result<Copied<T>>)
    requires input.Valid()
    requires bufferSize != 0
    ensures bufferSize < 0 ==> r == Failure(NegativeArraySize)
    ensures bufferSize > 0 ==> r.Success? && CopiedAll(input, output, r.value)
  {
    if bufferSize < 0 {
      return Failure(NegativeArraySize);
    }
    var scratch := new T[bufferSize as int];
    var buffer := scratch[..];
    var src := input;
    var out := output;
    var count: int32 := 0;
    while true
      invariant src.Valid() && src.data == input.data && src.life == input.life
      invariant src.singleReads == input.singleReads
      invariant input.pos <= src.pos
      invariant |buffer| == bufferSize as int
      invariant out.written == output.written + input.data[input.pos..src.pos]
      invariant out.life == output.life
      invariant count == Wrap(src.pos - input.pos)
      decreases |src.data| - src.pos
    {
      assert ChunkAllowed(src, |buffer|, if src.AtEnd() then 0 else 1);
      var n: nat :| n <= |buffer| && ChunkAllowed(src, |buffer|, n);
      var rd := ReadBulk(src, buffer, n);
      if rd.n == -1 {
        break;
      }
      assert input.data[input.pos..rd.src.pos] == input.data[input.pos..src.pos] + rd.buf[..rd.n];
      out := out.Write(rd.buf, 0, rd.n);
      WrapAdd(src.pos - input.pos, rd.n);
      count := Wrap(count as int + rd.n);
      buffer := rd.buf;
      src := rd.src;
    }
    r := Success(Copied(src, out, count));
  }

  /** `copy(InputStream, OutputStream, int)`. */
  method CopyBytes(input: Source<byte>, output: Sink<byte>, bufferSize: int32) returns (r: Result<Copied<byte>>)
    requires input.Valid()
    requires bufferSize != 0
    ensures bufferSize < 0 ==> r == Failure(NegativeArraySize)
    ensures bufferSize > 0 ==> r.Success? && CopiedAll(input, output, r.value)
    ensures r.Success? && |input.Remaining()| <= MaxValue ==> r.value.count as int == |input.Remaining()|
  {
    r := Copy(input, output, bufferSize);
  }

  /** `copy(Reader, Writer, int)`. */
  method CopyChars(input: Source<jchar>, output: Sink<jchar>, bufferSize: int32) returns (r: Result<Copied<jchar>>)
    requires input.Valid()
    requires bufferSize != 0
    ensures bufferSize < 0 ==> r == Failure(NegativeArraySize)
    ensures bufferSize > 0 ==> r.Success? && CopiedAll(input, output, r.value)
    ensures r.Success? && |input.Remaining()| <= MaxValue ==> r.value.count as int == |input.Remaining()|
  {
    r := Copy(input, output, bufferSize);
  }

  /** `copy(InputStream, OutputStream)`: the byte copy with `DEFAULT_BUFFER_SIZE`,
      which is positive, so it never fails and copies everything. */
  method CopyBytesDefault(input: Source<byte>, output: Sink<byte>) returns (r: Result<Copied<byte>>)
    requires input.Valid()
    ensures r.Success? && CopiedAll(input, output, r.value)
    ensures |input.Remaining()| <= MaxValue ==> r.value.count as int == |input.Remaining()|
  {
    r := CopyBytes(input, output, DefaultBufferSize);
  }

  /** `copy(Reader, Writer)`: the char copy with `DEFAULT_BUFFER_SIZE`; it
      never fails and copies every remaining code unit. */
  method CopyCharsDefault(input: Source<jchar>, output: Sink<jchar>) returns (r: Result<Copied<jchar>>)
    requires input.Valid()
    ensures r.Success? && CopiedAll(input, output, r.value)
    ensures |input.Remaining()| <= MaxValue ==> r.value.count as int == |input.Remaining()|
  {
    r := CopyChars(input, output, DefaultBufferSize);
  }

  /** Why a zero buffer size is excluded: with an empty buffer one pass of the
      loop body in `Copy` reads 0 rather than -1, so it does not leave the loop,
      and it leaves the source, the sink and the count exactly as they were.
      The loop state repeats for ever. */
  lemma EmptyBufferNeverEnds<T>(src: Source<T>, out: Sink<T>, count: int32, n: nat)
    requires src.Valid() && ChunkAllowed(src, 0, n)
    ensures var rd := ReadBulk(src, [], n);
            && rd.n != -1
            && rd.src == src
            && out.Write(rd.buf, 0, rd.n) == out
            && Wrap(count as int + rd.n) == count
  {
  }

  /** The `int` counter is exact only up to 2^31 - 1 elements: from 2^31 up to
      2^32 - 1 elements copied, the returned count is negative. */
  lemma CountOverflows(len: nat)
    requires MaxValue < len < Modulus
    ensures Wrap(len) < 0
  {
  }
}

=== FILE: int32.dfy ===
/** Java's 32-bit signed `int`: the type of buffer sizes and of the copy counters. */
module Int32 {

  const Modulus: int := 0x1_0000_0000
  const MinValue: int := -0x8000_0000
  const MaxValue: int := 0x7fff_ffff

  newtype int32 = x: int | -0x8000_0000 <= x < 0x8000_0000

  /** The `int` that Java arithmetic yields for the mathematical value `x`:
      the unique value in range congruent to `x` modulo 2^32. */
  function Wrap(x: int): (r: int32)
    ensures (r as int - x) % Modulus == 0
    ensures MinValue <= x <= MaxValue ==> r as int == x
  {
    var m := x % Modulus;
    if m <= MaxValue then m as int32 else (m - Modulus) as int32
  }

  /** Two values congruent modulo 2^32 wrap to the same `int`. */
  lemma WrapCongruent(x: int, y: int)
    requires (x - y) % Modulus == 0
    ensures Wrap(x) == Wrap(y)
  {
    var q := (x - y) / Modulus;
    assert x == y + q * Modulus;
    ShiftMod(y, q);
  }

  /** Adding a multiple of 2^32 does not change the remainder. */
  lemma {:induction false} ShiftMod(y: int, q: int)
    ensures (y + q * Modulus) % Modulus == y % Modulus
    decreases if q < 0 then -q else q
  {
    if q > 0 {
      ShiftMod(y, q - 1);
      assert y + q * Modulus == (y + (q - 1) * Modulus) + Modulus;
    } else if q < 0 {
      ShiftMod(y, q + 1);
      assert y + q * Modulus == (y + (q + 1) * Modulus) - Modulus;
    }
  }

  /** Accumulating with `count += n` on an `int` gives the wrapped total:
      wrapping after every step equals wrapping once at the end. */
  lemma WrapAdd(a: int, b: int)
    ensures Wrap(Wrap(a) as int + b) == Wrap(a + b)
  {
    var w := Wrap(a) as int;
    var q := (w - a) / Modulus;
    assert w - a == q * Modulus;
    assert (w + b) - (a + b) == q * Modulus;
    ShiftMod(0, q);
    WrapCongruent(w + b, a + b);
  }
}

=== FILE: quiet_close.dfy ===
/** The four `closeQuietly` overloads of `IOUtils`. They differ only in the
    parameter type, so one function covers the input side (`Reader`,
    `InputStream`) and one the output side (`Writer`, `OutputStream`). */
module QuietClose {
  import opened Results
  import opened Streams

  /** The `try { close(); } catch (IOException) {}` block: `close()` is called
      once, and an `IOException` it throws is caught and dropped. An unchecked
      exception is not caught and escapes. */
  function CloseCatching(l: Lifecycle): (r: Result<Lifecycle>)
    ensures r.Failure? <==> !l.closed && l.onClose == ThrowsUnchecked
    ensures r.Failure? ==> r.error == CloseUnchecked
    ensures r.Success? ==> r.value.closeCalls == l.closeCalls + 1
    ensures r.Success? ==> (r.value.closed <==> l.closed || l.onClose == Closes)
    ensures r.Success? ==> r.value.flushCalls == l.flushCalls && r.value.onClose == l.onClose
  {
    var c := Close(l);
    match c.thrown
    case None => Success(c.after)
    case Some(e) => if e == CloseFailed then Success(c.after) else Failure(e)
  }

  /** `closeQuietly(Reader)` and `closeQuietly(InputStream)`: nothing happens
      to an absent stream. A present one has `close()` called exactly once and
      everything but its lifecycle untouched; an `IOException` from `close()`
      is swallowed and an unchecked one escapes. */
  function CloseQuietlyInput<T>(input: Option<Source<T>>): (r: Result<Option<Source<T>>>)
    ensures input.None? ==> r == Success(None)
    ensures r.Failure? <==> input.Some? && !input.value.life.closed && input.value.life.onClose == ThrowsUnchecked
    ensures r.Failure? ==> r.error == CloseUnchecked
    ensures r.Success? && input.Some? ==> r.value.Some? && r.value.value == input.value.(life := r.value.value.life)
    ensures r.Success? && input.Some? ==> r.value.value.life.closeCalls == input.value.life.closeCalls + 1
    ensures r.Success? && input.Some? ==> r.value.value.life.flushCalls == input.value.life.flushCalls
    ensures r.Success? && input.Some? ==> r.value.value.life.onClose == input.value.life.onClose
    ensures r.Success? && input.Some? ==>
              (r.value.value.life.closed <==> input.value.life.closed || input.value.life.onClose == Closes)
  {
    match input
    case None => Success(None)
    case Some(s) =>
      match CloseCatching(s.life)
      case Success(l) => Success(Some(s.(life := l)))
      case Failure(e) => Failure(e)
  }

  /** `closeQuietly(Writer)` and `closeQuietly(OutputStream)`: as for the
      input side; in particular nothing written is lost and no flush is
      made beyond what the stream's own `close()` does. */
  function CloseQuietlyOutput<T>(output: Option<Sink<T>>): (r: Result<Option<Sink<T>>>)
    ensures output.None? ==> r == Success(None)
    ensures r.Failure? <==> output.Some? && !output.value.life.closed && output.value.life.onClose == ThrowsUnchecked
    ensures r.Failure? ==> r.error == CloseUnchecked
    ensures r.Success? && output.Some? ==> r.value.Some? && r.value.value.written == output.value.written
    ensures r.Success? && output.Some? ==> r.value.value.life.closeCalls == output.value.life.closeCalls + 1
    ensures r.Success? && output.Some? ==> r.value.value.life.flushCalls == output.value.life.flushCalls
    ensures r.Success? && output.Some? ==> r.value.value.life.onClose == output.value.life.onClose
    ensures r.Success? && output.Some? ==>
              (r.value.value.life.closed <==> output.value.life.closed || output.value.life.onClose == Closes)
  {
    match output
    case None => Success(None)
    case Some(s) =>
      match CloseCatching(s.life)
      case Success(l) => Success(Some(s.(life := l)))
      case Failure(e) => Failure(e)
  }

  /** Where a plain `close()` throws an `IOException`, the quiet one returns
      normally and leaves the stream in the same state. */
  lemma QuietlySwallowsCloseFailure<T>(s: Source<T>)
    requires s.life.onClose == ThrowsIOException
    ensures !s.life.closed ==> Close(s.life).thrown == Some(CloseFailed)
    ensures CloseQuietlyInput(Some(s)) == Success(Some(s.(life := Close(s.life).after)))
  {
  }

  /** Where a plain `close()` throws an unchecked exception, the quiet one
      throws it too: the Javadoc's "any exceptions will be ignored" does not
      hold for it. */
  lemma UncheckedCloseEscapes<T>(s: Source<T>, w: Sink<T>)
    requires !s.life.closed && s.life.onClose == ThrowsUnchecked
    requires !w.life.closed && w.life.onClose == ThrowsUnchecked
    ensures Close(s.life).thrown == Some(CloseUnchecked)
    ensures CloseQuietlyInput(Some(s)) == Failure(CloseUnchecked)
    ensures CloseQuietlyOutput(Some(w)) == Failure(CloseUnchecked)
  {
  }

  /** Once a quiet close of a source has returned normally, a second one also
      returns normally and changes nothing but the call count: the contents,
      the cursor and the open/closed state are those the first call left. */
  lemma CloseQuietlyInputTwice<T>(s: Option<Source<T>>)
    requires CloseQuietlyInput(s).Success?
    ensures var once := CloseQuietlyInput(s).value;
            var twice := CloseQuietlyInput(once);
            && twice.Success?
            && (s.Some? ==>
                  twice.value.value == once.value.(life := twice.value.value.life) &&
                  twice.value.value.life.closed == once.value.life.closed)
  {
  }

  /** The same for a sink: the written contents and the open/closed state are
      those the first call left. */
  lemma CloseQuietlyOutputTwice<T>(s: Option<Sink<T>>)
    requires CloseQuietlyOutput(s).Success?
    ensures var once := CloseQuietlyOutput(s).value;
            var twice := CloseQuietlyOutput(once);
            && twice.Success?
            && (s.Some? ==>
                  twice.value.value.written == once.value.written &&
                  twice.value.value.life.closed == once.value.life.closed)
  {
  }
}

=== FILE: results.dfy ===
/** Optional values, and the exceptions of the modelled operations as error values. */
module Results {
  import opened Text

  /** An argument that may be absent (a Java `null`, or an overload that omits it). */
  datatype Option<+T> = None | Some(value: T)

  /** The exceptions of the modelled operations: the runtime exception of the
      buffer allocation, the `IOException` of an unknown charset name, and
      what a stream's own `close()` throws. Other failures of the underlying
      transports are not modelled. */
  datatype Thrown =
    | NegativeArraySize                   // `new byte[bufferSize]` with a negative size
    | UnsupportedEncoding(name: JString)  // a charset name the platform does not know
    | CloseFailed                         // `close()` threw an `IOException`
    | CloseUnchecked                      // `close()` threw an unchecked exception

  /** The outcome of an operation that either returns normally or throws.
      A failure propagates through `:-` as the exception propagates in Java. */
  datatype Result<+T> = Success(value: T) | Failure(error: Thrown) {
    predicate IsFailure() {
      Failure?
    }

    function PropagateFailure<U>(): Result<U>
      requires Failure?
    {
      Failure(error)
    }

    function Extract(): T
      requires Success?
    {
      value
    }
  }
}

=== FILE: streams.dfy ===
/** The stream collaborators of `IOUtils`, reduced to their observable state:
    a source is a finite sequence with a read cursor, a sink an append-only
    sequence, and both carry the lifecycle that `flush` and `close` act on. */
module Streams {
  import opened Results

  /** A byte, in the unsigned 0..255 form that the single-byte `read()` returns. */
  newtype byte = x: int | 0 <= x < 256

  /** How this stream's `close()` behaves on an open stream, which is outside
      the model's control: it closes, or it throws an `IOException`, or it
      throws an unchecked exception. */
  datatype CloseOutcome = Closes | ThrowsIOException | ThrowsUnchecked

  /** What `flush()` and `close()` have done to a stream, and what its
      `close()` will do. */
  datatype Lifecycle = Lifecycle(closed: bool, closeCalls: nat, flushCalls: nat, onClose: CloseOutcome)

  /** A stream that has just been created by an adapter (a reader, writer or in-memory buffer). */
  const Fresh: Lifecycle := Lifecycle(false, 0, 0, Closes)

  /** An `InputStream` or `Reader`: everything it will ever deliver, how much
      of it is consumed, and how many single-element `read()` calls it has
      answered (bulk reads are not counted). */
  datatype Source<T> = Source(data: seq<T>, pos: nat, singleReads: nat, life: Lifecycle) {

    predicate Valid() {
      pos <= |data|
    }

    /** What the next reads will deliver. */
    function Remaining(): seq<T>
      requires Valid()
    {
      data[pos..]
    }

    predicate AtEnd()
      requires Valid()
    {
      pos == |data|
    }

    /** This source after everything it had left was read. */
    function Drained(): (s: Source<T>)
      requires Valid()
      ensures s.Valid() && s.AtEnd() && s.Remaining() == []
      ensures s.data == data && s.singleReads == singleReads && s.life == life
    {
      this.(pos := |data|)
    }
  }

  /** A `ByteArrayInputStream` or `StringReader` over in-memory contents. */
  function Over<T>(contents: seq<T>): (s: Source<T>)
    ensures s.Valid() && s.Remaining() == contents
    ensures s.singleReads == 0 && s.life == Fresh
  {
    Source(contents, 0, 0, Fresh)
  }

  /** An `OutputStream` or `Writer`: everything that has been written to it. */
  datatype Sink<T> = Sink(written: seq<T>, life: Lifecycle) {

    /** This sink after `xs` was written to it; nothing else changes. */
    function Append(xs: seq<T>): (s: Sink<T>)
      ensures |s.written| == |written| + |xs| && s.written[..|written|] == written && s.written[|written|..] == xs
      ensures s.life == life
    {
      this.(written := written + xs)
    }

    /** `write(buf, off, len)`: appends the `len` elements of `buf` starting at `off`. */
    function Write(buf: seq<T>, off: nat, len: nat): (s: Sink<T>)
      requires off + len <= |buf|
      ensures |s.written| == |written| + len
              && s.written[..|written|] == written
              && s.written[|written|..] == buf[off..off + len]
      ensures s.life == life
    {
      Append(buf[off..off + len])
    }

    /** `flush()`: records the call; an in-memory or pass-through sink has nothing else to do. */
    function Flush(): (s: Sink<T>)
      ensures s.written == written
      ensures s.life.flushCalls == life.flushCalls + 1
      ensures s.life.closed == life.closed && s.life.closeCalls == life.closeCalls
    {
      this.(life := life.(flushCalls := life.flushCalls + 1))
    }
  }

  /** What one `read(buf)` returns: the count `n` (-1 at end of input), the
      buffer it filled, and the source after the read. */
  datatype BulkRead<T> = Chunk(n: int, buf: seq<T>, src: Source<T>)

  /** The chunk lengths a `read` into a buffer of `len` elements may deliver:
      nothing into an empty buffer, nothing at end of input, and otherwise
      between one element and as many as fit and remain. */
  predicate ChunkAllowed<T>(s: Source<T>, len: nat, n: nat)
    requires s.Valid()
  {
    if len == 0 || s.AtEnd() then n == 0 else 1 <= n <= len && n <= |s.Remaining()|
  }

  /** `InputStream.read(byte[])` / `Reader.read(char[])`, where the stream
      chooses the chunk length `chunk`. A zero-length buffer never reports the
      end and never consumes anything. */
  function ReadBulk<T>(s: Source<T>, buf: seq<T>, chunk: nat): (r: BulkRead<T>)
    requires s.Valid() && ChunkAllowed(s, |buf|, chunk)
    ensures r.src.Valid() && r.src.data == s.data && r.src.singleReads == s.singleReads && r.src.life == s.life
    ensures |r.buf| == |buf|
    ensures |buf| == 0 ==> r.n == 0 && r.src == s
    ensures r.n == -1 <==> |buf| > 0 && s.AtEnd()
    ensures r.n == -1 ==> r.src == s
    ensures |buf| > 0 && !s.AtEnd() ==> r.n == chunk
    ensures r.n >= 0 ==>
              && r.n <= |buf| == |r.buf|
              && r.n <= |s.Remaining()|
              && r.src.pos == s.pos + r.n
              && r.buf[..r.n] == s.Remaining()[..r.n]
              && r.buf[r.n..] == buf[r.n..]
  {
    if |buf| == 0 then Chunk(0, buf, s)
    else if s.AtEnd() then Chunk(-1, buf, s)
    else Chunk(chunk, s.data[s.pos..s.pos + chunk] + buf[chunk..], s.(pos := s.pos + chunk))
  }

  /** The single-byte `read()`: the next byte as 0..255, or -1 at end of
      input. Either way the call is counted. */
  function ReadByte(s: Source<byte>): (r: (int, Source<byte>))
    requires s.Valid()
    ensures r.1.Valid() && r.1.data == s.data && r.1.life == s.life
    ensures r.1.singleReads == s.singleReads + 1
    ensures s.AtEnd() ==> r.0 == -1 && r.1.pos == s.pos
    ensures !s.AtEnd() ==> r.0 == s.data[s.pos] as int && r.1.pos == s.pos + 1
  {
    var counted := s.(singleReads := s.singleReads + 1);
    if s.AtEnd() then (-1, counted) else (s.data[s.pos] as int, counted.(pos := s.pos + 1))
  }

  /** What `close()` leaves behind, and what it threw. */
  datatype Closing = Closing(after: Lifecycle, thrown: Option<Thrown>)

  /** `close()`: always counted as a call. On a stream that is already closed
      it has no effect, as `java.io.Closeable` requires. Otherwise it closes the
      stream, unless this stream's close throws, in which case the state stays
      as it was. */
  function Close(l: Lifecycle): (r: Closing)
    ensures r.after.closeCalls == l.closeCalls + 1
    ensures r.thrown.Some? <==> !l.closed && l.onClose != Closes
    ensures !l.closed && l.onClose == ThrowsIOException ==> r.thrown == Some(CloseFailed)
    ensures !l.closed && l.onClose == ThrowsUnchecked ==> r.thrown == Some(CloseUnchecked)
    ensures r.after.closed <==> l.closed || l.onClose == Closes
    ensures r.after.flushCalls == l.flushCalls && r.after.onClose == l.onClose
  {
    var calls := l.closeCalls + 1;
    if l.closed then Closing(l.(closeCalls := calls), None)
    else
      match l.onClose
      case Closes => Closing(l.(closed := true, closeCalls := calls), None)
      case ThrowsIOException => Closing(l.(closeCalls := calls), Some(CloseFailed))
      case ThrowsUnchecked => Closing(l.(closeCalls := calls), Some(CloseUnchecked))
  }
}

=== FILE: text.dfy ===
/** Java text: a `char` is one UTF-16 code unit, and a `String` (or the
    contents of a `Reader` or `Writer`) is a sequence of them. A character
    outside the Basic Multilingual Plane is two units (a surrogate pair), and a
    lone surrogate is a legal `char`. */
module Text {
  /** A Java `char`: any 16-bit code unit, surrogates included. */
  newtype jchar = x: int | 0 <= x < 0x1_0000

  /** A Java `String`, or the chars a `Reader` delivers or a `Writer` holds. */
  type JString = seq<jchar>
}
